=== FILE: README.md ===
# Offline-first file uploads, modelled in Dafny

This project models the core of a progressive web app that lets a user pick
photos and videos while offline. The app keeps them in the browser's IndexedDB
and uploads them when the network comes back. Three pieces are modelled:

- **The record store** (`FileStore`, with `Keys` and `Uuid`). IndexedDB's
  object store `files`, keyed by `id`, holds `StoredFile` records. The model
  keeps them as a sequence sorted by key, which is the order `getAll` returns.
  `store.get`, `put`, `add` and `delete` become `Lookup`, an in-place write,
  `Insert` and `Remove`. The class `FileStore.ObjectStore` holds the records and
  has one method per operation of the composable: size-gated add, listing,
  pending listing, the two read-modify-write updates, delete, clear-uploaded
  and stats. Every store request may fail. That failure (its `onerror`) is an
  input, `Tx`.
- **The upload orchestrator** (`Uploader`). The class `Uploader.Orchestrator`
  holds the connectivity flag, the single-flight flag, the progress list and
  the count of finished passes. It refers to the store. A drain pass
  (`processUploadQueue`) is specified by the function `Uploader.Pass`, and the
  method's loop is proved to compute exactly that pass. The network is an
  input:
  - an `Attempt` per pending record says what the upload request answered
    and whether each store request it led to succeeded;
  - a `Probe` says what the reachability probe saw.
- **The server endpoint** (`UploadEndpoint`). It is the ordered chain of
  checks over the multipart form, followed by the mapping of thrown errors.

Points where the model follows the exact behaviour of the code:

- The fallback id generator draws 31 nibbles, not 32. The version digit `4`
  in its template is literal.
- An empty upload payload passes the server's "data present" check. Only a
  missing payload fails it.
- A thrown error whose status code is `0` counts as having no status code, and
  it becomes a 500.
- `clearUploadedFiles` deletes nothing. See Findings.

## Model

| member | source | states |
|---|---|---|
| Keys.LessIrreflexive | composables/useFileStore.ts:114 | no key sorts before itself in the store's key order |
| Keys.LessTotal | composables/useFileStore.ts:114 | two different keys are always ordered one way or the other |
| Keys.LessTransitive | composables/useFileStore.ts:114 | the key order is transitive, so `getAll` order is well defined |
| Uuid.HexDigit | composables/useFileStore.ts:30 | printing a nibble in base 16 gives a lower-case hex digit |
| Uuid.HexDigitInjective | composables/useFileStore.ts:30 | different nibbles print as different digits |
| Uuid.Fill | composables/useFileStore.ts:27-31 | the replacement keeps the template's length |
| Uuid.Replacement | composables/useFileStore.ts:28-30 | an `x` becomes any hex digit; a `y` becomes one of 8, 9, a, b |
| Uuid.FillShape | composables/useFileStore.ts:27-31 | the replacement keeps the template's length and every literal, and puts a digit of the right kind at every placeholder |
| Uuid.TemplatePlaceholders | composables/useFileStore.ts:27 | the template has 31 placeholders, so the fallback consumes 31 draws |
| Uuid.TemplateLandmarks | composables/useFileStore.ts:27 | the template is 36 long, with dashes at 8/13/18/23, `4` at 14 and `y` at 19 |
| Uuid.ShapedIsVersion4 | composables/useFileStore.ts:27-31 | anything shaped after the template has the version-4 layout |
| Uuid.FallbackUuid | composables/useFileStore.ts:26-31 | every fallback id has the version-4 layout: 36 characters, dashes at 8/13/18/23, `4` at 14, 8..b at 19, hex digits elsewhere |
| Uuid.GenerateUuid | composables/useFileStore.ts:21-32 | the host's random UUID is used as given when present; otherwise the result has the version-4 layout |
| FileStore.CheckFileSize | composables/useFileStore.ts:57-59 | the size gate; its boundary is stated by `FileStore.SizeGateBoundary` |
| FileStore.SizeGateBoundary | composables/useFileStore.ts:15 | the limit is inclusive: exactly 200 MiB passes and one byte more does not |
| FileStore.Position | composables/useFileStore.ts:161 | `store.get` finds the first record with the key, or reports none |
| FileStore.Lookup | composables/useFileStore.ts:161-165 | a found record carries the key and is in the store; none found means no record has the key |
| FileStore.LookupAfterPut | composables/useFileStore.ts:170 | `store.put` over a record's own slot changes what is found under that key only |
| FileStore.Insert | composables/useFileStore.ts:97-104 | `store.add` of a new key yields one more record, keeps key order, and holds exactly the old records plus the new one |
| FileStore.LookupAfterInsert | composables/useFileStore.ts:100 | after `store.add` the new key finds the new record and every other key finds what it found before |
| FileStore.MarkUploaded | composables/useFileStore.ts:153-189 | a present id gets `uploaded = true` and no other field or record changes; an absent id fails with not-found; a failing request fails |
| FileStore.IncrementAttempts | composables/useFileStore.ts:192-213 | a present id gets exactly one more attempt and nothing else changes; an absent id fails with not-found; a failing request fails |
| FileStore.Remove | composables/useFileStore.ts:216-227 | deletion keeps every record with another key, removes the key, and keeps key order |
| FileStore.RemoveIdempotent | composables/useFileStore.ts:222 | deleting twice equals deleting once |
| FileStore.LookupAfterRemove | composables/useFileStore.ts:222 | after deletion the key finds nothing and every other key finds what it found before |
| FileStore.PendingRecords | composables/useFileStore.ts:138 | the `!uploaded` filter is never longer than its input; its content is stated by `FileStore.PendingMembers` and `FileStore.PendingSorted` |
| FileStore.PendingMembers | composables/useFileStore.ts:134-138 | the pending listing holds exactly the records with `uploaded = false` |
| FileStore.PendingSorted | composables/useFileStore.ts:134-138 | the pending listing keeps the store's key order |
| FileStore.Uploaded | composables/useFileStore.ts:257 | the uploaded listing holds exactly the records with `uploaded = true` |
| FileStore.PendingAppend | composables/useFileStore.ts:138 | filtering distributes over concatenation |
| FileStore.PendingIdempotent | composables/useFileStore.ts:236-246 | clearing the uploaded records a second time changes nothing |
| FileStore.TotalSize | composables/useFileStore.ts:255 | the `reduce` of sizes; its meaning is stated by `FileStore.TotalSizeAppend` |
| FileStore.TotalSizeAppend | composables/useFileStore.ts:255 | the size total of two runs of records is the sum of their totals |
| FileStore.PendingUploadedSplit | composables/useFileStore.ts:255-257 | pending and uploaded counts add up to the record count, and their sizes add up to the total size |
| FileStore.StatsOf | composables/useFileStore.ts:253-265 | `pendingCount` counts the records not uploaded and `uploadedCount` the uploaded ones, the two add up to `totalFiles`, and `totalSize` is the sum of all sizes, split between the two groups |
| FileStore.ObjectStore.constructor | composables/useFileStore.ts:45-52 | a freshly created object store is empty |
| FileStore.ObjectStore.AddFile | composables/useFileStore.ts:79-105 | an oversized file is refused before any store access; otherwise one new record with the file's name, size and type, `uploaded = false` and 0 attempts, is added and every other record stays; an existing key fails instead of being overwritten |
| FileStore.ObjectStore.GetAllFiles | composables/useFileStore.ts:108-125 | every record, in key order, or the request's failure |
| FileStore.ObjectStore.GetPendingFiles | composables/useFileStore.ts:128-150 | exactly the records not yet uploaded, in key order, or the request's failure |
| FileStore.ObjectStore.MarkAsUploaded | composables/useFileStore.ts:153-189 | the read-modify-write leaves the store as `MarkUploaded` says, and unchanged on failure |
| FileStore.ObjectStore.IncrementUploadAttempts | composables/useFileStore.ts:192-213 | the read-modify-write leaves the store as `IncrementAttempts` says, and unchanged on failure |
| FileStore.ObjectStore.DeleteFile | composables/useFileStore.ts:216-227 | the store becomes `Remove` of the key: a present key goes and an absent key is a no-op |
| FileStore.ObjectStore.ClearUploadedFilesAsWritten | composables/useFileStore.ts:230-250 | as written, the operation always rejects with a DataError and deletes nothing |
| FileStore.ObjectStore.ClearUploadedFiles | composables/useFileStore.ts:230-250 | the cursor walk leaves exactly the records with `uploaded = false`, each untouched and in order |
| FileStore.ObjectStore.GetStorageStats | composables/useFileStore.ts:253-265 | a committed read always yields stats: every record counted, pending and uploaded counted separately and adding up, and the total size of all records; a failed read fails |
| Uploader.FindIndex | composables/useUploader.ts:150 | the first progress entry for the file, or -1 when there is none |
| Uploader.ProgressOf | composables/useUploader.ts:205 | a found entry is in the list and carries the id; none found means no entry has it |
| Uploader.Upsert | composables/useUploader.ts:150-160 | a file without an entry gets a new `uploading`/0 entry; an existing entry is reset to `uploading`/0; other files' entries are untouched; at most one entry per file |
| Uploader.RecordResult | composables/useUploader.ts:167-182 | the file's entry becomes `success`/100, or `error` with '上傳失敗' and its progress kept; other entries are untouched; at most one entry per file |
| Uploader.Count | composables/useUploader.ts:216-219 | `filter(...).length` for one status; its meaning is stated by `Uploader.CountNone` |
| Uploader.CountNone | composables/useUploader.ts:216-219 | a status counts zero exactly when no entry has it |
| Uploader.StatusesPartition | composables/useUploader.ts:214-219 | every entry has exactly one of the four statuses |
| Uploader.UploadEffect | composables/useUploader.ts:92-122 | a 2xx response with a JSON body marks the record uploaded; anything else, including a failed mark, counts one more attempt; a rejected attempt count propagates as the store failure, and then the store is unchanged; an absent record always propagates an error |
| Uploader.DrainFrom | composables/useUploader.ts:142-183 | the drain loop never adds or removes a record and keeps one progress entry per file |
| Uploader.Pass | composables/useUploader.ts:133-185 | a pass never adds or removes a record and keeps one entry per file; a failed listing changes nothing |
| Uploader.SelectedFromMember | composables/useUploader.ts:144-147 | the files a drain selects are exactly those with fewer than 3 attempts |
| Uploader.DrainAt | composables/useUploader.ts:142-183 | in the drain, a file that is not selected keeps its record and entry; a selected one receives exactly one outcome, or none only when the pass was cut short (which of these holds for each file is fixed by `DrainAtPosition`) |
| Uploader.DrainEscapes | composables/useUploader.ts:117-120 | the drain is cut short exactly when some selected file's upload or mark failed and its attempt count was rejected too |
| Uploader.PassEscapes | composables/useUploader.ts:133-185 | a pass is cut short exactly when the listing fails or the attempt for some selected pending record is rejected |
| Uploader.PassNoEscape | composables/useUploader.ts:184-185 | when the store accepts every attempt count, a listed pass always runs to the end |
| Uploader.PassOutcome | composables/useUploader.ts:142-183 | an uploaded or exhausted record, and its entry, is left alone; a record with fewer than 3 attempts ends marked uploaded with a `success`/100 entry, or with one more attempt and an `error`/0 entry, or untouched only when the pass was cut short (`PassAtPosition` says which records the cut leaves untouched) |
| Uploader.DrainKeepsFirst | composables/useUploader.ts:150-183 | a selected file whose attempt is not rejected gets its write and its `success`/100 or `error`/0 entry, and the rest of the drain leaves both alone |
| Uploader.DrainAtPosition | composables/useUploader.ts:142-184 | for the j-th selected file: if an earlier selected file was rejected, the drain escaped there and this file was never tried (record and entry as before); if its own attempt is rejected, the drain escapes with its record unchanged and its entry left at `uploading`/0; otherwise it keeps its one outcome |
| Uploader.PassAtPosition | composables/useUploader.ts:133-185 | the same three cases for the j-th selected pending record of a listed pass: untried after an earlier rejection, stopped at `uploading`/0 by its own rejection, otherwise its outcome committed and kept |
| Uploader.PassKeepsRetryBound | composables/useUploader.ts:14 | if no record has more than 3 attempts before a pass, none has after it |
| Uploader.ProbeTransition | composables/useUploader.ts:38-57 | an ok probe while offline goes online and drains; a failed probe while online goes offline; any other probe changes nothing |
| Uploader.ProbeSettles | composables/useUploader.ts:47-56 | repeating the same probe result changes nothing, so a drain starts on a transition only |
| Uploader.Orchestrator.constructor | composables/useUploader.ts:11-17 | the composable starts with the platform's online state, not uploading, with an empty list and count 0 |
| Uploader.Orchestrator.UploadFile | composables/useUploader.ts:92-122 | the store and the result are those `UploadEffect` gives |
| Uploader.Orchestrator.MarkUploading | composables/useUploader.ts:150-160 | the in-place progress update before an upload is exactly `Upsert`, and the flags and count stay |
| Uploader.Orchestrator.ShowResult | composables/useUploader.ts:167-182 | the in-place progress update after an upload is exactly `RecordResult`, and the flags and count stay |
| Uploader.Orchestrator.ProcessUploadQueue | composables/useUploader.ts:125-191 | offline or already uploading, nothing changes; otherwise exactly one `Pass` runs, the flag is cleared and the finished-pass count goes up by one, even when the pass is cut short |
| Uploader.Orchestrator.HandleOnline | composables/useUploader.ts:26-30 | sets the flag online and runs a pass unless one is under way |
| Uploader.Orchestrator.HandleOffline | composables/useUploader.ts:32-35 | clears the online flag and nothing else |
| Uploader.Orchestrator.CheckNetworkConnection | composables/useUploader.ts:38-57 | the flag follows `ProbeTransition`, and a pass runs exactly when the transition asks for one and none is under way |
| Uploader.Orchestrator.TriggerUpload | composables/useUploader.ts:194-201 | offline, the user is told and nothing else happens; online, it behaves as one drain attempt |
| Uploader.Orchestrator.GetUploadProgress | composables/useUploader.ts:204-206 | the file's entry if the list has one, or none when no entry has that id |
| Uploader.Orchestrator.ClearUploadQueue | composables/useUploader.ts:209-211 | the list becomes empty, so the stats total is 0, and the flags and count stay |
| Uploader.Orchestrator.GetUploadStats | composables/useUploader.ts:214-228 | the total is the list length, each field counts the entries with its own status, and success + error + pending + uploading = total |
| UploadEndpoint.SomePrefix | server/api/upload.post.ts:23 | the type passes exactly when present and starting with one of the listed prefixes |
| UploadEndpoint.AllowedTypeIff | server/api/upload.post.ts:22-30 | accepted exactly when the type starts with `image/` or `video/`; an absent type is refused |
| UploadEndpoint.Validate | server/api/upload.post.ts:5-53 | checks run in the order empty form, incomplete part, type, size; the first failure decides the 400; success echoes the first part's filename, size and type |
| UploadEndpoint.CatchError | server/api/upload.post.ts:55-66 | an error with a status code is rethrown unchanged; any other becomes a 500 |
| UploadEndpoint.HandleUpload | server/api/upload.post.ts:1-67 | success only for an acceptable first part, with `success = true` and size within 200 MiB; every error leaving the handler carries a status code |
| UploadEndpoint.OnlyFirstPartMatters | server/api/upload.post.ts:12 | parts after the first never change the outcome |
| UploadEndpoint.SizeBoundary | server/api/upload.post.ts:33-39 | exactly 200 MiB is accepted; one byte more is refused as too large |
| UploadEndpoint.ClientAndServerAgree | composables/useFileStore.ts:57-59 | the client's size check and the server's accept exactly the same payload sizes |

## Left out

- Opening the database, the upgrade handler and the lazy `if (!db) await initDB()` singleton (composables/useFileStore.ts:35-54, 84). These are IndexedDB plumbing. The model's store always exists.
- Transactions and request callbacks. Each store call is one atomic step whose failure is the `Tx` input.
- Concurrent interleavings. This covers the un-awaited pass started by the `online` handler and races between store calls on one id. The model is sequential, and a pass started by `HandleOnline` runs to completion before the handler returns.
- `fetch`, `FormData`, `AbortSignal.timeout`, the 3-second interval and the window and document listeners (composables/useUploader.ts:23-89). These are I/O and timers. Their results are the `Attempt` and `Probe` inputs.
- `console` logging. `alert` becomes the `alerted` result of `TriggerUpload`.
- `crypto.randomUUID`, `Math.random` and `Date.now`. They are inputs: an optional host UUID, the nibble draws, and `now`. `FileStore.ObjectStore.AddFile` takes the id as a parameter, and a key that is already present fails with a constraint error.
- `checkStorageQuota` and `maxStorageSize` (composables/useFileStore.ts:16, 62-76). The first is a host storage estimate. The second is a constant nothing uses.
- `isIOSSafari` and `isPWAMode` (composables/useUploader.ts:231-242). These are browser detection.
- Keys.KeyRangeOnly: IndexedDB's valid-key rule is taken as given from the IndexedDB specification, not proved. Booleans are not keys, so `IDBKeyRange.only(true)` throws a DataError.
- Keys.Less compares Unicode scalar values, while IndexedDB compares string keys by UTF-16 code units. The two orders differ only for ids holding characters above U+FFFF. Generated ids never hold them, but `FileStore.ObjectStore.AddFile` accepts any id.
- Vue's `ref` and `readonly`. They become plain fields.
- `readMultipartFormData` and `createError`. The parsed form or the thrown error is the `FormRead` input, and an error is an `HttpError` value.
- FileStore.ObjectStore.ClearUploadedFiles models the evidently intended behaviour rather than the code as written. `FileStore.ObjectStore.ClearUploadedFilesAsWritten` models the code as written (see Findings).
- UploadEndpoint.HttpError: status codes are integers. A status code that is a string, or `NaN`, is not modelled.
- Uploader.Orchestrator.UploadFile: the blob is not sent anywhere. Only the response's kind matters to the model.

## Findings

| source | as written | input that shows it | evidently intended | confidence | as-written member | corrected member |
|---|---|---|---|---|---|---|
| composables/useFileStore.ts:237 | opens the cursor on the `uploaded` index with `IDBKeyRange.only(true)`. A boolean is not a valid IndexedDB key, so building the range throws a DataError, the promise rejects, and no record is ever deleted | any store, for instance one holding a single record with `uploaded = true` | delete every record with `uploaded = true` and keep the rest | high, not executed | FileStore.ObjectStore.ClearUploadedFilesAsWritten | FileStore.ObjectStore.ClearUploadedFiles |

=== FILE: common.dfy ===
/** Small value types shared by the client store, the uploader and the server handler. */
module Common {

  /** An optional value: a JavaScript `undefined` / absent property is `None`. */
  datatype Option<+T> = None | Some(value: T)

  /** The outcome of an operation that either resolves with a value or rejects with an error. */
  datatype Result<+T, +E> = Ok(value: T) | Err(error: E)

  /** One byte of a file's payload. */
  type Byte = b: int | 0 <= b < 256
}

=== FILE: file_store.dfy ===
/**
 * The client's durable record store: one IndexedDB object store of file
 * records keyed by `id`. The object store is modelled by the sequence of its
 * records in ascending key order, which is the order `getAll` returns them in.
 * Every store request either succeeds or fails with the request's error; the
 * `Tx` argument of an operation says which (`Abort` stands for `onerror`).
 */
module FileStore {
  import opened Common
  import opened Keys

  /** 200 MiB, the largest file `addFile` accepts. */
  const MaxFileSize: nat := 200 * 1024 * 1024

  /** A file handed to `addFile`: its size is the length of its content. */
  datatype File = File(name: string, fileType: string, content: seq<Byte>)

  datatype StoredFile = StoredFile(
    id: string,
    name: string,
    size: nat,
    fileType: string,
    blob: seq<Byte>,
    createdAt: int,
    uploaded: bool,
    uploadAttempts: nat)

  datatype StoreError =
    | SizeExceeded      // addFile: larger than MaxFileSize
    | ConstraintError   // store.add: the key is already present
    | NotFound          // markAsUploaded, incrementUploadAttempts: no record with that id
    | BackendFailure    // a request's onerror
    | DataError         // IDBKeyRange.only with a value that is not a key

  /** Whether a store request succeeds (`onsuccess`) or fails (`onerror`). */
  datatype Tx = Commit | Abort

  /** `checkFileSize`: the limit is inclusive. */
  predicate CheckFileSize(file: File)
  {
    |file.content| <= MaxFileSize
  }

  /** The size gate is inclusive: exactly 200 MiB passes, one byte more does not. */
  lemma SizeGateBoundary(file: File)
    ensures |file.content| == MaxFileSize ==> CheckFileSize(file)
    ensures |file.content| == MaxFileSize + 1 ==> !CheckFileSize(file)
  {
  }

  /* ---------------- Key order and lookup ---------------- */

  ghost predicate SortedById(s: seq<StoredFile>)
  {
    forall i, j :: 0 <= i < j < |s| ==> Less(s[i].id, s[j].id)
  }

  ghost predicate UniqueIds(s: seq<StoredFile>)
  {
    forall i, j :: 0 <= i < j < |s| ==> s[i].id != s[j].id
  }

  /** `t` holds records with the same keys, in the same places, as `s`. */
  ghost predicate SameKeys(s: seq<StoredFile>, t: seq<StoredFile>)
  {
    |t| == |s| && forall i :: 0 <= i < |s| ==> t[i].id == s[i].id
  }

  lemma SortedIsUnique(s: seq<StoredFile>)
    requires SortedById(s)
    ensures UniqueIds(s)
  {
    forall i, j | 0 <= i < j < |s| ensures s[i].id != s[j].id {
      LessIrreflexive(s[i].id);
    }
  }

  /** Every record of `s` has a key above `id`. */
  ghost predicate Above(id: string, s: seq<StoredFile>)
  {
    forall x :: x in s ==> Less(id, x.id)
  }

  lemma SortedTail(s: seq<StoredFile>)
    requires SortedById(s) && s != []
    ensures SortedById(s[1..]) && Above(s[0].id, s[1..])
  {
    forall x | x in s[1..] ensures Less(s[0].id, x.id) {
      var j :| 0 <= j < |s[1..]| && s[1..][j] == x;
      assert s[j + 1] == x;
    }
  }

  lemma SortedCons(f: StoredFile, s: seq<StoredFile>)
    requires SortedById(s) && Above(f.id, s)
    ensures SortedById([f] + s)
  {
    var t := [f] + s;
    forall i, j | 0 <= i < j < |t| ensures Less(t[i].id, t[j].id) {
      if i == 0 {
        assert t[j] == s[j - 1];
      } else {
        assert t[i] == s[i - 1] && t[j] == s[j - 1];
      }
    }
  }

  /** Where the record with key `id` sits (`store.get`), or -1. */
  function Position(s: seq<StoredFile>, id: string): (k: int)
    ensures -1 <= k < |s|
    ensures 0 <= k ==> s[k].id == id && forall j :: 0 <= j < k ==> s[j].id != id
    ensures k == -1 ==> forall j :: 0 <= j < |s| ==> s[j].id != id
  {
    if |s| == 0 then -1
    else if s[0].id == id then 0
    else
      var k := Position(s[1..], id);
      if k == -1 then -1 else k + 1
  }

  /** The record stored under `id`, if any. */
  function Lookup(s: seq<StoredFile>, id: string): (r: Option<StoredFile>)
    ensures r.Some? ==> r.value in s && r.value.id == id
    ensures r.None? ==> forall x :: x in s ==> x.id != id
  {
    var k := Position(s, id);
    if k < 0 then None else Some(s[k])
  }

  lemma PositionIs(s: seq<StoredFile>, id: string, p: int)
    requires -1 <= p < |s|
    requires 0 <= p ==> s[p].id == id
    requires forall j :: 0 <= j < |s| && (p < 0 || j < p) ==> s[j].id != id
    ensures Position(s, id) == p
  {
  }

  /** In a store with distinct keys, every record is found under its own key. */
  lemma PositionOfElement(s: seq<StoredFile>, k: int)
    requires UniqueIds(s) && 0 <= k < |s|
    ensures Position(s, s[k].id) == k
    ensures Lookup(s, s[k].id) == Some(s[k])
  {
    PositionIs(s, s[k].id, k);
  }

  lemma LookupMember(s: seq<StoredFile>, y: StoredFile)
    requires UniqueIds(s) && y in s
    ensures Lookup(s, y.id) == Some(y)
  {
    var k :| 0 <= k < |s| && s[k] == y;
    PositionOfElement(s, k);
  }

  /** Writing a record back in place of the one with its key (`store.put`) changes that key only. */
  lemma {:induction false} LookupAfterPut(s: seq<StoredFile>, k: int, v: StoredFile)
    requires 0 <= k < |s| && Position(s, s[k].id) == k && v.id == s[k].id
    ensures forall x :: Lookup(s[k := v], x) == if x == v.id then Some(v) else Lookup(s, x)
  {
    var t := s[k := v];
    forall x
      ensures Lookup(t, x) == if x == v.id then Some(v) else Lookup(s, x)
    {
      if x == v.id {
        PositionIs(t, x, k);
      } else {
        PositionIs(t, x, Position(s, x));
      }
    }
  }

  /* ---------------- Pure store operations ---------------- */

  /** `store.add` into the key-ordered store: the record goes to its key's place. */
  function Insert(s: seq<StoredFile>, f: StoredFile): (r: seq<StoredFile>)
    requires SortedById(s) && Lookup(s, f.id).None?
    ensures SortedById(r)
    ensures |r| == |s| + 1
    ensures forall x :: x in r <==> x in s || x == f
  {
    if s == [] then [f]
    else if Less(f.id, s[0].id) then
      assert forall j :: 0 <= j < |s| ==> Less(f.id, s[j].id) by {
        forall j | 0 < j < |s| ensures Less(f.id, s[j].id) {
          LessTransitive(f.id, s[0].id, s[j].id);
        }
      }
      [f] + s
    else
      LessTotal(f.id, s[0].id);
      var rest := Insert(s[1..], f);
      assert forall x :: x in s[1..] ==> x in s;
      assert forall x :: x in rest ==> Less(s[0].id, x.id) by {
        forall x | x in rest ensures Less(s[0].id, x.id) {
          if x != f {
            var j :| 0 <= j < |s[1..]| && s[1..][j] == x;
            assert s[j + 1] == x;
          }
        }
      }
      [s[0]] + rest
  }

  /** After `store.add`, the new key holds the new record and no other key changes. */
  lemma {:induction false} LookupAfterInsert(s: seq<StoredFile>, f: StoredFile)
    requires SortedById(s) && Lookup(s, f.id).None?
    ensures forall x :: Lookup(Insert(s, f), x) == if x == f.id then Some(f) else Lookup(s, x)
  {
    var r := Insert(s, f);
    SortedIsUnique(s);
    SortedIsUnique(r);
    forall x
      ensures Lookup(r, x) == if x == f.id then Some(f) else Lookup(s, x)
    {
      if x == f.id {
        LookupMember(r, f);
      } else if Lookup(s, x).Some? {
        LookupMember(r, Lookup(s, x).value);
      } else if Lookup(r, x).Some? {
        LookupMember(s, Lookup(r, x).value);
      }
    }
  }

  /**
   * The read-modify-write of `markAsUploaded`: get the record, set `uploaded`,
   * put it back.
   */
  function MarkUploaded(s: seq<StoredFile>, id: string, tx: Tx): (r: Result<seq<StoredFile>, StoreError>)
    ensures tx.Abort? ==> r == Err(BackendFailure)
    ensures tx.Commit? && Lookup(s, id).None? ==> r == Err(NotFound)
    ensures tx.Commit? && Lookup(s, id).Some? ==> r.Ok?
    ensures r.Ok? ==> SameKeys(s, r.value)
    ensures r.Ok? ==> forall x :: Lookup(r.value, x) == (if x == id then Some(Lookup(s, id).value.(uploaded := true)) else Lookup(s, x))
  {
    if tx.Abort? then Err(BackendFailure)
    else
      var k := Position(s, id);
      if k < 0 then Err(NotFound)
      else
        var file := s[k].(uploaded := true);
        LookupAfterPut(s, k, file);
        Ok(s[k := file])
  }

  /** A record with one more upload attempt. */
  function Bumped(f: StoredFile): StoredFile
  {
    f.(uploadAttempts := f.uploadAttempts + 1)
  }

  /** The read-modify-write of `incrementUploadAttempts`. */
  function IncrementAttempts(s: seq<StoredFile>, id: string, tx: Tx): (r: Result<seq<StoredFile>, StoreError>)
    ensures tx.Abort? ==> r == Err(BackendFailure)
    ensures tx.Commit? && Lookup(s, id).None? ==> r == Err(NotFound)
    ensures tx.Commit? && Lookup(s, id).Some? ==> r.Ok?
    ensures r.Ok? ==> SameKeys(s, r.value)
    ensures r.Ok? ==> forall x :: Lookup(r.value, x) == (if x == id then Some(Bumped(Lookup(s, id).value)) else Lookup(s, x))
  {
    if tx.Abort? then Err(BackendFailure)
    else
      var k := Position(s, id);
      if k < 0 then Err(NotFound)
      else
        var file := Bumped(s[k]);
        LookupAfterPut(s, k, file);
        Ok(s[k := file])
  }

  /** `store.delete(id)`: removes the key if present; an absent key is not an error. */
  function Remove(s: seq<StoredFile>, id: string): (r: seq<StoredFile>)
    ensures forall x :: x in r <==> x in s && x.id != id
    ensures SortedById(s) ==> SortedById(r)
  {
    if s == [] then []
    else
      var rest := Remove(s[1..], id);
      assert forall x :: x in s[1..] ==> x in s;
      if s[0].id == id then
        assert SortedById(s) ==> SortedById(s[1..]) by {
          if SortedById(s) { SortedTail(s); }
        }
        rest
      else
        assert SortedById(s) ==> SortedById([s[0]] + rest) by {
          if SortedById(s) { SortedTail(s); SortedCons(s[0], rest); }
        }
        [s[0]] + rest
  }

  lemma {:induction false} RemoveIdempotent(s: seq<StoredFile>, id: string)
    ensures Remove(Remove(s, id), id) == Remove(s, id)
  {
    if s != [] {
      RemoveIdempotent(s[1..], id);
    }
  }

  /** After a delete, the key is absent and every other key keeps its record. */
  lemma LookupAfterRemove(s: seq<StoredFile>, id: string)
    requires SortedById(s)
    ensures forall x :: Lookup(Remove(s, id), x) == if x == id then None else Lookup(s, x)
  {
    var r := Remove(s, id);
    SortedIsUnique(s);
    SortedIsUnique(r);
    forall x
      ensures Lookup(r, x) == if x == id then None else Lookup(s, x)
    {
      if x != id {
        if Lookup(s, x).Some? {
          LookupMember(r, Lookup(s, x).value);
        } else if Lookup(r, x).Some? {
          LookupMember(s, Lookup(r, x).value);
        }
      }
    }
  }

  /** `getPendingFiles`: `getAll()` filtered to `!uploaded`, order kept. */
  function PendingRecords(s: seq<StoredFile>): (r: seq<StoredFile>)
    ensures |r| <= |s|
  {
    if s == [] then []
    else if s[0].uploaded then PendingRecords(s[1..])
    else [s[0]] + PendingRecords(s[1..])
  }

  /** The pending listing holds exactly the records not yet uploaded. */
  lemma {:induction false} PendingMembers(s: seq<StoredFile>)
    ensures forall x :: x in PendingRecords(s) <==> x in s && !x.uploaded
  {
    if s != [] {
      PendingMembers(s[1..]);
      assert forall x :: x in s <==> x == s[0] || x in s[1..];
    }
  }

  /** Filtering keeps key order. */
  lemma {:induction false} PendingSorted(s: seq<StoredFile>)
    requires SortedById(s)
    ensures SortedById(PendingRecords(s))
  {
    if s != [] {
      SortedTail(s);
      PendingSorted(s[1..]);
      if !s[0].uploaded {
        PendingMembers(s[1..]);
        SortedCons(s[0], PendingRecords(s[1..]));
      }
    }
  }

  /** The records with `uploaded = true`, order kept. */
  function Uploaded(s: seq<StoredFile>): (r: seq<StoredFile>)
    ensures forall x :: x in r <==> x in s && x.uploaded
  {
    if s == [] then []
    else
      assert forall x :: x in s[1..] ==> x in s;
      if s[0].uploaded then [s[0]] + Uploaded(s[1..]) else Uploaded(s[1..])
  }

  lemma {:induction false} PendingAppend(a: seq<StoredFile>, b: seq<StoredFile>)
    ensures PendingRecords(a + b) == PendingRecords(a) + PendingRecords(b)
  {
    if a == [] {
      assert a + b == b;
    } else {
      assert (a + b)[0] == a[0] && (a + b)[1..] == a[1..] + b;
      PendingAppend(a[1..], b);
    }
  }

  /** One more record examined by the cursor: it is kept exactly when it is pending. */
  lemma PendingStep(s: seq<StoredFile>, k: int)
    requires 0 <= k < |s|
    ensures PendingRecords(s[..k + 1]) == PendingRecords(s[..k]) + (if s[k].uploaded then [] else [s[k]])
  {
    assert s[..k + 1] == s[..k] + [s[k]];
    PendingAppend(s[..k], [s[k]]);
    assert [s[k]][1..] == [];
  }

  /**
   * One step of the cursor walk in `clearUploadedFiles`: with the first `k`
   * records examined (`walked` is what is left of the store), the record under
   * the cursor is the next original one; deleting it, or stepping past it, gives
   * the state with `k + 1` records examined.
   */
  lemma CursorStep(s: seq<StoredFile>, k: int, walked: seq<StoredFile>, i: int)
    requires 0 <= k <= |s|
    requires walked == PendingRecords(s[..k]) + s[k..] && i == |PendingRecords(s[..k])| && i < |walked|
    ensures k < |s| && walked[i] == s[k]
    ensures walked[i].uploaded ==>
              walked[..i] + walked[i + 1..] == PendingRecords(s[..k + 1]) + s[k + 1..] && i == |PendingRecords(s[..k + 1])|
    ensures !walked[i].uploaded ==>
              walked == PendingRecords(s[..k + 1]) + s[k + 1..] && i + 1 == |PendingRecords(s[..k + 1])|
  {
    var done := PendingRecords(s[..k]);
    var tail := s[k + 1..];
    assert s[k..] == [s[k]] + tail;
    assert walked == done + [s[k]] + tail;
    PendingStep(s, k);
    if s[k].uploaded {
      assert PendingRecords(s[..k + 1]) == done;
      assert walked[..i] == done;
      assert walked[i + 1..] == tail;
    } else {
      assert PendingRecords(s[..k + 1]) == done + [s[k]];
    }
  }

  /** Filtering twice is filtering once: a second clear finds nothing to delete. */
  lemma {:induction false} PendingIdempotent(s: seq<StoredFile>)
    ensures PendingRecords(PendingRecords(s)) == PendingRecords(s)
  {
    if s != [] {
      PendingIdempotent(s[1..]);
    }
  }

  function TotalSize(s: seq<StoredFile>): nat
  {
    if s == [] then 0 else s[0].size + TotalSize(s[1..])
  }

  datatype StorageStats = StorageStats(totalFiles: nat, totalSize: nat, pendingCount: nat, uploadedCount: nat)

  /** The `reduce` of sizes adds up piecewise: the total of a concatenation is the sum of the totals. */
  lemma {:induction false} TotalSizeAppend(a: seq<StoredFile>, b: seq<StoredFile>)
    ensures TotalSize(a + b) == TotalSize(a) + TotalSize(b)
  {
    if a == [] {
      assert a + b == b;
    } else {
      assert (a + b)[0] == a[0] && (a + b)[1..] == a[1..] + b;
      TotalSizeAppend(a[1..], b);
    }
  }

  /** Every record is pending or uploaded, and its size is counted on exactly one side. */
  lemma {:induction false} PendingUploadedSplit(s: seq<StoredFile>)
    ensures |PendingRecords(s)| + |Uploaded(s)| == |s|
    ensures TotalSize(PendingRecords(s)) + TotalSize(Uploaded(s)) == TotalSize(s)
  {
    if s != [] {
      PendingUploadedSplit(s[1..]);
    }
  }

  /** `getStorageStats` over the records `getAll` returned. */
  function StatsOf(files: seq<StoredFile>): (r: StorageStats)
    ensures r.totalFiles == |files| && r.totalSize == TotalSize(files)
    ensures r.pendingCount == |PendingRecords(files)| && r.uploadedCount == |Uploaded(files)|
    ensures r.pendingCount + r.uploadedCount == r.totalFiles
    ensures r.totalSize == TotalSize(PendingRecords(files)) + TotalSize(Uploaded(files))
  {
    PendingUploadedSplit(files);
    StorageStats(|files|, TotalSize(files), |PendingRecords(files)|, |Uploaded(files)|)
  }

  /* ---------------- The object store ---------------- */

  class ObjectStore {
    /** The object store's records in ascending key order. */
    var records: seq<StoredFile>

    ghost predicate Valid()
      reads this
    {
      SortedById(records)
    }

    constructor ()
      ensures Valid() && records == []
    {
      records := [];
    }

    /**
     * `addFile`: the size check comes first and touches no store; then one
     * `store.add`, which never overwrites an existing key.
     */
    method AddFile(file: File, id: string, now: int, tx: Tx) returns (r: Result<StoredFile, StoreError>)
      requires Valid()
      modifies this
      ensures Valid()
      ensures !CheckFileSize(file) ==> r == Err(SizeExceeded) && records == old(records)
      ensures CheckFileSize(file) && tx.Abort? ==> r == Err(BackendFailure) && records == old(records)
      ensures CheckFileSize(file) && tx.Commit? && Lookup(old(records), id).Some? ==>
                r == Err(ConstraintError) && records == old(records)
      ensures CheckFileSize(file) && tx.Commit? && Lookup(old(records), id).None? ==> r.Ok?
      ensures r.Ok? ==>
                && r.value == StoredFile(id, file.name, |file.content|, file.fileType, file.content, now, false, 0)
                && records == Insert(old(records), r.value)
                && forall x :: Lookup(records, x) == if x == id then Some(r.value) else Lookup(old(records), x)
    {
      if !CheckFileSize(file) {
        return Err(SizeExceeded);
      }
      var stored := StoredFile(id, file.name, |file.content|, file.fileType, file.content, now, false, 0);
      if tx.Abort? {
        return Err(BackendFailure);
      }
      if Lookup(records, id).Some? {
        return Err(ConstraintError);
      }
      LookupAfterInsert(records, stored);
      records := Insert(records, stored);
      r := Ok(stored);
    }

    /** `getAllFiles`: every record, in key order. */
    method GetAllFiles(tx: Tx) returns (r: Result<seq<StoredFile>, StoreError>)
      requires Valid()
      ensures tx.Abort? ==> r == Err(BackendFailure)
      ensures tx.Commit? ==> r == Ok(records)
      ensures r.Ok? ==> SortedById(r.value)
    {
      if tx.Abort? {
        return Err(BackendFailure);
      }
      r := Ok(records);
    }

    /** `getPendingFiles`: exactly the records not yet uploaded, in key order. */
    method GetPendingFiles(tx: Tx) returns (r: Result<seq<StoredFile>, StoreError>)
      requires Valid()
      ensures tx.Abort? ==> r == Err(BackendFailure)
      ensures tx.Commit? ==> r == Ok(PendingRecords(records))
      ensures r.Ok? ==> SortedById(r.value) && forall x :: x in r.value <==> x in records && !x.uploaded
    {
      var all := GetAllFiles(tx);
      if all.Err? {
        return Err(all.error);
      }
      PendingMembers(all.value);
      PendingSorted(all.value);
      r := Ok(PendingRecords(all.value));
    }

    /** `markAsUploaded`. */
    method MarkAsUploaded(id: string, tx: Tx) returns (r: Result<(), StoreError>)
      requires Valid()
      modifies this
      ensures Valid()
      ensures var m := MarkUploaded(old(records), id, tx);
                && (m.Ok? ==> r.Ok? && records == m.value)
                && (m.Err? ==> r == Err(m.error) && records == old(records))
    {
      if tx.Abort? {
        return Err(BackendFailure);
      }
      var k := Position(records, id);
      if k < 0 {
        return Err(NotFound);
      }
      var file := records[k];
      file := file.(uploaded := true);
      records := records[k := file];
      r := Ok(());
    }

    /** `incrementUploadAttempts`. */
    method IncrementUploadAttempts(id: string, tx: Tx) returns (r: Result<(), StoreError>)
      requires Valid()
      modifies this
      ensures Valid()
      ensures var m := IncrementAttempts(old(records), id, tx);
                && (m.Ok? ==> r.Ok? && records == m.value)
                && (m.Err? ==> r == Err(m.error) && records == old(records))
    {
      if tx.Abort? {
        return Err(BackendFailure);
      }
      var k := Position(records, id);
      if k < 0 {
        return Err(NotFound);
      }
      var file := records[k];
      file := file.(uploadAttempts := file.uploadAttempts + 1);
      records := records[k := file];
      r := Ok(());
    }

    /** `deleteFile`. */
    method DeleteFile(id: string, tx: Tx) returns (r: Result<(), StoreError>)
      requires Valid()
      modifies this
      ensures Valid()
      ensures tx.Abort? ==> r == Err(BackendFailure) && records == old(records)
      ensures tx.Commit? ==> r.Ok? && records == Remove(old(records), id)
    {
      if tx.Abort? {
        return Err(BackendFailure);
      }
      records := Remove(records, id);
      r := Ok(());
    }

    /**
     * `clearUploadedFiles` as written: the cursor is opened on the `uploaded`
     * index with `IDBKeyRange.only(true)`. A boolean is not a valid key, so
     * building the range throws a DataError, the promise rejects and no record
     * is deleted.
     */
    method ClearUploadedFilesAsWritten() returns (r: Result<(), StoreError>)
      requires Valid()
      ensures r == Err(DataError)
    {
      var range := KeyRangeOnly(BooleanValue(true));
      assert range.Err?;
      r := Err(DataError);
    }

    /**
     * `clearUploadedFiles` as intended: a cursor walk in key order that deletes
     * each record with `uploaded = true` and steps past the others.
     */
    method ClearUploadedFiles(tx: Tx) returns (r: Result<(), StoreError>)
      requires Valid()
      modifies this
      ensures Valid()
      ensures tx.Abort? ==> r == Err(BackendFailure) && records == old(records)
      ensures tx.Commit? ==> r.Ok? && records == PendingRecords(old(records))
    {
      if tx.Abort? {
        return Err(BackendFailure);
      }
      ghost var s0 := records;
      ghost var k := 0;
      var i := 0;
      assert s0[..0] == [] && s0[0..] == s0;
      while i < |records|
        invariant 0 <= k <= |s0|
        invariant records == PendingRecords(s0[..k]) + s0[k..]
        invariant i == |PendingRecords(s0[..k])|
        decreases |records| - i
      {
        CursorStep(s0, k, records, i);
        ghost var next := PendingRecords(s0[..k + 1]) + s0[k + 1..];
        if records[i].uploaded {
          records := records[..i] + records[i + 1..];
        } else {
          i := i + 1;
        }
        assert records == next;
        k := k + 1;
      }
      assert s0[..k] == s0;
      PendingSorted(s0);
      r := Ok(());
    }

    /** `getStorageStats`: aggregates over `getAllFiles`; fails when that fails. */
    method GetStorageStats(tx: Tx) returns (r: Result<StorageStats, StoreError>)
      requires Valid()
      ensures tx.Abort? ==> r == Err(BackendFailure)
      ensures tx.Commit? ==> r.Ok?
      ensures r.Ok? ==>
                && r.value.totalFiles == |records|
                && r.value.pendingCount == |PendingRecords(records)|
                && r.value.uploadedCount == |Uploaded(records)|
                && r.value.pendingCount + r.value.uploadedCount == r.value.totalFiles
                && r.value.totalSize == TotalSize(records)
    {
      var files := GetAllFiles(tx);
      if files.Err? {
        return Err(files.error);
      }
      r := Ok(StatsOf(files.value));
    }
  }
}

=== FILE: keys.dfy ===
/**
 * IndexedDB keys. The record store keys its records by a string id, and an
 * object store keeps its records in ascending key order; `getAll` returns them
 * in that order. String keys compare element by element, and a proper prefix
 * sorts first. Elements here are Unicode scalar values, while IndexedDB
 * compares UTF-16 code units; the two orders agree on ids made only of
 * characters up to U+FFFF, which includes every id the store generates.
 */
module Keys {
  import opened Common

  /** Strict lexicographic order on string keys. */
  predicate Less(a: string, b: string)
  {
    if |a| == 0 then |b| != 0
    else if |b| == 0 then false
    else if a[0] != b[0] then a[0] < b[0]
    else Less(a[1..], b[1..])
  }

  lemma {:induction false} LessIrreflexive(a: string)
    ensures !Less(a, a)
  {
    if |a| > 0 {
      LessIrreflexive(a[1..]);
    }
  }

  lemma {:induction false} LessTotal(a: string, b: string)
    requires a != b
    ensures Less(a, b) || Less(b, a)
  {
    if |a| > 0 && |b| > 0 && a[0] == b[0] {
      assert a == [a[0]] + a[1..] && b == [b[0]] + b[1..];
      LessTotal(a[1..], b[1..]);
    }
  }

  lemma {:induction false} LessTransitive(a: string, b: string, c: string)
    requires Less(a, b) && Less(b, c)
    ensures Less(a, c)
  {
    if |a| > 0 && a[0] == b[0] && b[0] == c[0] {
      LessTransitive(a[1..], b[1..], c[1..]);
    }
  }

  /** The kinds of JavaScript values the store code hands to IndexedDB as keys. */
  datatype Value = NumberValue(n: int) | StringValue(s: string) | BooleanValue(b: bool)

  /** Numbers and strings are valid keys; booleans are not. */
  predicate IsValidKey(v: Value)
  {
    !v.BooleanValue?
  }

  /** The exception `IDBKeyRange.only` throws for a value that is not a key (a DataError). */
  datatype KeyError = NotAValidKey

  /** A key range holding exactly one key, as `IDBKeyRange.only` builds it. */
  datatype KeyRange = Only(key: Value)

  /**
   * `IDBKeyRange.only(value)`: throws a DataError when the value is not a
   * valid key.
   */
  function KeyRangeOnly(v: Value): (r: Result<KeyRange, KeyError>)
    ensures r.Ok? <==> IsValidKey(v)
    ensures r.Ok? ==> r.value.key == v
  {
    if IsValidKey(v) then Ok(Only(v)) else Err(NotAValidKey)
  }
}

=== FILE: upload_endpoint.dfy ===
/**
 * The server's upload endpoint: a fixed chain of checks over the parts of a
 * multipart form, ending in a receipt or an HTTP error. Reading the form is
 * an input (`FormRead`); creating an error is building an `HttpError` value.
 */
module UploadEndpoint {
  import opened Common
  import FileStore

  /** 200 MiB, the largest accepted payload. */
  const MaxSize: nat := 200 * 1024 * 1024

  /** The accepted media-type prefixes, tried in order. */
  const AllowedTypes: seq<string> := ["image/", "video/"]

  const NoFileMessage: string := "沒有檔案被上傳"
  const IncompleteMessage: string := "檔案資料不完整"
  const UnsupportedTypeMessage: string := "不支援的檔案類型"
  const TooLargeMessage: string := "檔案大小超過限制"
  const FailedMessage: string := "檔案上傳失敗"
  const SuccessMessage: string := "檔案上傳成功"

  /** One part of the multipart form; every field may be absent. */
  datatype Part = Part(filename: Option<string>, data: Option<seq<Byte>>, partType: Option<string>)

  /** A thrown error. `statusCode` is absent for errors that are not HTTP errors. */
  datatype HttpError = HttpError(statusCode: Option<int>, statusMessage: string)

  /** The success body. */
  datatype Receipt = Receipt(success: bool, message: string, filename: string, size: nat, fileType: string)

  /** What reading the form gave: the parts (absent when the body held none), or a thrown error. */
  datatype FormRead = Parsed(form: Option<seq<Part>>) | ReadThrew(error: HttpError)

  predicate StartsWith(s: string, prefix: string)
  {
    |prefix| <= |s| && s[..|prefix|] == prefix
  }

  /** `allowedTypes.some(type => t?.startsWith(type))` over the given prefix list. */
  function SomePrefix(types: seq<string>, t: Option<string>): (b: bool)
    ensures b <==> t.Some? && exists i :: 0 <= i < |types| && StartsWith(t.value, types[i])
  {
    if types == [] then false
    else (t.Some? && StartsWith(t.value, types[0])) || SomePrefix(types[1..], t)
  }

  /** The type check accepts exactly the `image/` and `video/` media types; an absent type is refused. */
  lemma AllowedTypeIff(t: Option<string>)
    ensures SomePrefix(AllowedTypes, t) <==> t.Some? && (StartsWith(t.value, "image/") || StartsWith(t.value, "video/"))
  {
    if t.Some? && SomePrefix(AllowedTypes, t) {
      var i :| 0 <= i < |AllowedTypes| && StartsWith(t.value, AllowedTypes[i]);
      assert i == 0 || i == 1;
    }
  }

  /** The filename is non-empty and the data is present; an empty payload counts as present. */
  predicate Complete(p: Part)
  {
    p.filename.Some? && p.filename.value != "" && p.data.Some?
  }

  /** Everything the handler requires of the part it examines. */
  predicate Acceptable(p: Part)
  {
    Complete(p) && SomePrefix(AllowedTypes, p.partType) && |p.data.value| <= MaxSize
  }

  /**
   * The body of the `try` once the form is read: the checks run in the
   * order empty form, incomplete part, type, size, and the first that fails
   * decides the error. Only the first part is examined.
   */
  function Validate(form: Option<seq<Part>>): (r: Result<Receipt, HttpError>)
    ensures r.Err? ==> r.error.statusCode == Some(400)
    ensures form.None? || form.value == [] ==> r == Err(HttpError(Some(400), NoFileMessage))
    ensures r.Ok? <==> form.Some? && form.value != [] && Acceptable(form.value[0])
    ensures r.Ok? ==> var p := form.value[0];
              r.value == Receipt(true, SuccessMessage, p.filename.value, |p.data.value|, p.partType.value)
    ensures r == Err(HttpError(Some(400), IncompleteMessage)) <==>
              form.Some? && form.value != [] && !Complete(form.value[0])
    ensures r == Err(HttpError(Some(400), UnsupportedTypeMessage)) <==>
              form.Some? && form.value != [] && Complete(form.value[0]) && !SomePrefix(AllowedTypes, form.value[0].partType)
    ensures r == Err(HttpError(Some(400), TooLargeMessage)) <==>
              form.Some? && form.value != [] && Complete(form.value[0]) && SomePrefix(AllowedTypes, form.value[0].partType)
              && |form.value[0].data.value| > MaxSize
  {
    if form.None? || |form.value| == 0 then Err(HttpError(Some(400), NoFileMessage))
    else
      var file := form.value[0];
      if file.filename.None? || file.filename.value == "" || file.data.None? then
        Err(HttpError(Some(400), IncompleteMessage))
      else if !SomePrefix(AllowedTypes, file.partType) then
        Err(HttpError(Some(400), UnsupportedTypeMessage))
      else if |file.data.value| > MaxSize then
        Err(HttpError(Some(400), TooLargeMessage))
      else
        Ok(Receipt(true, SuccessMessage, file.filename.value, |file.data.value|, file.partType.value))
  }

  /** JavaScript truthiness of a status code: present and not zero. */
  predicate Truthy(code: Option<int>)
  {
    code.Some? && code.value != 0
  }

  /** The `catch` block: an error with a truthy status code goes out unchanged, any other becomes a 500. */
  function CatchError(e: HttpError): (r: HttpError)
    ensures Truthy(e.statusCode) ==> r == e
    ensures !Truthy(e.statusCode) ==> r == HttpError(Some(500), FailedMessage)
    ensures Truthy(r.statusCode)
  {
    if Truthy(e.statusCode) then e else HttpError(Some(500), FailedMessage)
  }

  /** The event handler: read the form, validate it, and map whatever was thrown. */
  function HandleUpload(read: FormRead): (r: Result<Receipt, HttpError>)
    ensures r.Err? ==> Truthy(r.error.statusCode)
    ensures r.Ok? ==> read.Parsed? && read.form.Some? && read.form.value != [] && Acceptable(read.form.value[0])
    ensures r.Ok? ==> r.value.success && r.value.size <= MaxSize
    ensures read.Parsed? ==> r == Validate(read.form)
    ensures read.ReadThrew? ==> r == Err(CatchError(read.error))
  {
    match read
    case ReadThrew(e) => Err(CatchError(e))
    case Parsed(form) =>
      match Validate(form)
      case Ok(receipt) => Ok(receipt)
      case Err(e) => Err(CatchError(e))
  }

  /** Parts after the first never change the outcome. */
  lemma OnlyFirstPartMatters(a: seq<Part>, b: seq<Part>)
    requires a != [] && b != [] && a[0] == b[0]
    ensures HandleUpload(Parsed(Some(a))) == HandleUpload(Parsed(Some(b)))
  {
  }

  /** The size bound is inclusive: a complete, well-typed part of exactly 200 MiB is accepted, one byte more is not. */
  lemma SizeBoundary(p: Part)
    requires Complete(p) && SomePrefix(AllowedTypes, p.partType)
    ensures |p.data.value| == MaxSize ==> HandleUpload(Parsed(Some([p]))).Ok?
    ensures |p.data.value| == MaxSize + 1 ==> HandleUpload(Parsed(Some([p]))) == Err(HttpError(Some(400), TooLargeMessage))
  {
  }

  /** The server's size check and the client's `checkFileSize` accept exactly the same payloads. */
  lemma ClientAndServerAgree(f: FileStore.File, p: Part)
    requires p.data == Some(f.content)
    ensures FileStore.CheckFileSize(f) <==> |p.data.value| <= MaxSize
  {
  }
}

=== FILE: uploader.dfy ===
/**
 * The upload orchestrator and its connectivity flag. A drain pass takes the
 * pending records from the record store and uploads them one at a time; the
 * outcome of every attempt is written back to the store, and an in-memory
 * progress list shows how each file fared. The network is an input here: an
 * `Attempt` says what the upload request answered and whether each store
 * request it led to succeeded, and a `Probe` says what the reachability probe
 * saw.
 */
module Uploader {
  import opened Common
  import opened FileStore

  /** A record that has failed this many times is no longer selected. */
  const MaxRetries: nat := 3

  /** The error text a failed attempt leaves on its progress entry. */
  const UploadFailedMessage: string := "上傳失敗"

  /* ---------------- The progress list ---------------- */

  datatype Status = Pending | Uploading | Success | Error

  datatype UploadProgress = UploadProgress(fileId: string, progress: int, status: Status, error: Option<string>)

  ghost predicate UniqueFileIds(q: seq<UploadProgress>)
  {
    forall i, j :: 0 <= i < j < |q| ==> q[i].fileId != q[j].fileId
  }

  /** `findIndex(p => p.fileId === id)`: the first entry for `id`, or -1. */
  function FindIndex(q: seq<UploadProgress>, id: string): (k: int)
    ensures -1 <= k < |q|
    ensures 0 <= k ==> q[k].fileId == id && forall j :: 0 <= j < k ==> q[j].fileId != id
    ensures k == -1 ==> forall j :: 0 <= j < |q| ==> q[j].fileId != id
  {
    if |q| == 0 then -1
    else if q[0].fileId == id then 0
    else
      var k := FindIndex(q[1..], id);
      if k == -1 then -1 else k + 1
  }

  /** `find(p => p.fileId === id)`. */
  function ProgressOf(q: seq<UploadProgress>, id: string): (r: Option<UploadProgress>)
    ensures r.Some? ==> r.value in q && r.value.fileId == id
    ensures r.None? ==> forall e :: e in q ==> e.fileId != id
  {
    var k := FindIndex(q, id);
    if k < 0 then None else Some(q[k])
  }

  lemma FindIndexIs(q: seq<UploadProgress>, id: string, p: int)
    requires -1 <= p < |q|
    requires 0 <= p ==> q[p].fileId == id
    requires forall j :: 0 <= j < |q| && (p < 0 || j < p) ==> q[j].fileId != id
    ensures FindIndex(q, id) == p
  {
  }

  /** Overwriting the entry found for `v.fileId` changes what is found for that id only. */
  lemma {:induction false} ProgressAfterWrite(q: seq<UploadProgress>, k: int, v: UploadProgress)
    requires 0 <= k < |q| && FindIndex(q, v.fileId) == k
    ensures forall x :: ProgressOf(q[k := v], x) == if x == v.fileId then Some(v) else ProgressOf(q, x)
  {
    var t := q[k := v];
    forall x
      ensures ProgressOf(t, x) == if x == v.fileId then Some(v) else ProgressOf(q, x)
    {
      if x == v.fileId {
        FindIndexIs(t, x, k);
      } else {
        FindIndexIs(t, x, FindIndex(q, x));
      }
    }
  }

  /** Appending an entry for an id not yet listed changes what is found for that id only. */
  lemma {:induction false} ProgressAfterPush(q: seq<UploadProgress>, v: UploadProgress)
    requires FindIndex(q, v.fileId) == -1
    ensures forall x :: ProgressOf(q + [v], x) == if x == v.fileId then Some(v) else ProgressOf(q, x)
  {
    var t := q + [v];
    forall x
      ensures ProgressOf(t, x) == if x == v.fileId then Some(v) else ProgressOf(q, x)
    {
      if x == v.fileId {
        FindIndexIs(t, x, |q|);
      } else {
        FindIndexIs(t, x, FindIndex(q, x));
      }
    }
  }

  /**
   * The progress update before an upload: a new `uploading`/0 entry when the
   * file has none, otherwise its entry is reset to `uploading`/0 in place
   * (an earlier error text stays).
   */
  function Upsert(q: seq<UploadProgress>, id: string): (r: seq<UploadProgress>)
    ensures ProgressOf(q, id).None? ==> r == q + [UploadProgress(id, 0, Uploading, None)]
    ensures ProgressOf(q, id).None? ==> ProgressOf(r, id) == Some(UploadProgress(id, 0, Uploading, None))
    ensures ProgressOf(q, id).Some? ==> |r| == |q|
    ensures ProgressOf(q, id).Some? ==> ProgressOf(r, id) == Some(ProgressOf(q, id).value.(status := Uploading, progress := 0))
    ensures forall x :: x != id ==> ProgressOf(r, x) == ProgressOf(q, x)
    ensures UniqueFileIds(q) ==> UniqueFileIds(r)
  {
    var k := FindIndex(q, id);
    if k == -1 then
      var v := UploadProgress(id, 0, Uploading, None);
      ProgressAfterPush(q, v);
      q + [v]
    else
      var v := q[k].(status := Uploading, progress := 0);
      ProgressAfterWrite(q, k, v);
      q[k := v]
  }

  /**
   * The progress update after an upload: the file's entry becomes
   * `success`/100, or `error` with the failure text and its progress left as
   * it was. A file without an entry leaves the list as it is.
   */
  function RecordResult(q: seq<UploadProgress>, id: string, success: bool): (r: seq<UploadProgress>)
    ensures ProgressOf(q, id).None? ==> r == q
    ensures ProgressOf(q, id).Some? && success ==>
              ProgressOf(r, id) == Some(ProgressOf(q, id).value.(status := Success, progress := 100))
    ensures ProgressOf(q, id).Some? && !success ==>
              ProgressOf(r, id) == Some(ProgressOf(q, id).value.(status := Error, error := Some(UploadFailedMessage)))
    ensures forall x :: x != id ==> ProgressOf(r, x) == ProgressOf(q, x)
    ensures |r| == |q| && (UniqueFileIds(q) ==> UniqueFileIds(r))
  {
    var k := FindIndex(q, id);
    if k == -1 then q
    else
      var v := if success then q[k].(status := Success, progress := 100)
               else q[k].(status := Error, error := Some(UploadFailedMessage));
      ProgressAfterWrite(q, k, v);
      q[k := v]
  }

  function Count(q: seq<UploadProgress>, st: Status): nat
  {
    if q == [] then 0 else (if q[0].status == st then 1 else 0) + Count(q[1..], st)
  }

  /** A status counts nothing exactly when no entry has it. */
  lemma {:induction false} CountNone(q: seq<UploadProgress>, st: Status)
    ensures Count(q, st) == 0 <==> forall e :: e in q ==> e.status != st
  {
    if q != [] {
      CountNone(q[1..], st);
      assert forall e :: e in q <==> e == q[0] || e in q[1..];
    }
  }

  /** Every entry has exactly one of the four statuses. */
  lemma {:induction false} StatusesPartition(q: seq<UploadProgress>)
    ensures Count(q, Success) + Count(q, Error) + Count(q, Pending) + Count(q, Uploading) == |q|
  {
    if q != [] {
      StatusesPartition(q[1..]);
    }
  }

  datatype UploadStats = UploadStats(total: nat, success: nat, error: nat, pending: nat, uploading: nat)

  /* ---------------- One upload ---------------- */

  /** What the upload request answered: a 2xx whose body is or is not JSON, another status, or a throw. */
  datatype UploadResponse = Response2xx(bodyIsJson: bool) | ResponseNot2xx | FetchThrew

  /** The environment's side of one attempt: the response and the fate of each store request. */
  datatype Attempt = Attempt(response: UploadResponse, markTx: Tx, incrementTx: Tx)

  /** The store after an upload attempt, and what `uploadFile` returned or threw. */
  datatype Upload = Upload(records: seq<StoredFile>, result: Result<bool, StoreError>)

  /**
   * The attempt escapes `uploadFile`: the upload or the mark did not succeed,
   * and the `incrementUploadAttempts` in the `catch` was rejected too.
   */
  predicate Rejects(a: Attempt)
  {
    !(a.response == Response2xx(true) && a.markTx.Commit?) && a.incrementTx.Abort?
  }

  /**
   * `uploadFile`: a 2xx response whose body parses leads to `markAsUploaded`;
   * anything else, or a rejected `markAsUploaded`, is caught and leads to
   * `incrementUploadAttempts`, whose own rejection propagates.
   */
  function UploadEffect(s: seq<StoredFile>, id: string, a: Attempt): (u: Upload)
    ensures SameKeys(s, u.records)
    ensures u.result == Ok(true) <==> a.response == Response2xx(true) && a.markTx.Commit? && Lookup(s, id).Some?
    ensures u.result.Ok? ==> Lookup(s, id).Some? && forall x :: x != id ==> Lookup(u.records, x) == Lookup(s, x)
    ensures u.result == Ok(true) ==> Lookup(u.records, id) == Some(Lookup(s, id).value.(uploaded := true))
    ensures u.result == Ok(false) ==> Lookup(u.records, id) == Some(Bumped(Lookup(s, id).value))
    ensures u.result.Err? ==> u.records == s
    ensures Lookup(s, id).Some? && a.incrementTx.Commit? ==> u.result.Ok?
    ensures Lookup(s, id).Some? && Rejects(a) ==> u.result == Err(BackendFailure)
    ensures Lookup(s, id).None? ==> u.result.Err?
  {
    if a.response == Response2xx(true) && MarkUploaded(s, id, a.markTx).Ok? then
      Upload(MarkUploaded(s, id, a.markTx).value, Ok(true))
    else
      match IncrementAttempts(s, id, a.incrementTx)
      case Ok(t) => Upload(t, Ok(false))
      case Err(e) => Upload(s, Err(e))
  }

  /* ---------------- A drain pass ---------------- */

  /** The store and progress list after a pass, and whether an error cut the pass short. */
  datatype PassResult = PassResult(records: seq<StoredFile>, queue: seq<UploadProgress>, escaped: bool)

  /**
   * The `for` loop of `processUploadQueue` from the `i`-th pending file on:
   * exhausted files are skipped, every other file gets a progress reset, one
   * upload and one result, and a rejection from the store ends the pass.
   */
  function DrainFrom(files: seq<StoredFile>, attempts: seq<Attempt>, i: nat,
                     records: seq<StoredFile>, queue: seq<UploadProgress>): (p: PassResult)
    requires i <= |files| <= |attempts|
    ensures SameKeys(records, p.records)
    ensures UniqueFileIds(queue) ==> UniqueFileIds(p.queue)
    decreases |files| - i
  {
    if i == |files| then PassResult(records, queue, false)
    else if files[i].uploadAttempts >= MaxRetries then DrainFrom(files, attempts, i + 1, records, queue)
    else
      var q1 := Upsert(queue, files[i].id);
      var u := UploadEffect(records, files[i].id, attempts[i]);
      match u.result
      case Err(_) => PassResult(u.records, q1, true)
      case Ok(success) => DrainFrom(files, attempts, i + 1, u.records, RecordResult(q1, files[i].id, success))
  }

  /**
   * One pass behind the guard: list the pending records (a rejected listing is
   * caught at pass level) and drain them. `attempts[j]` answers for the
   * `j`-th pending record.
   */
  function Pass(records: seq<StoredFile>, queue: seq<UploadProgress>, listing: Tx, attempts: seq<Attempt>): (p: PassResult)
    requires |records| <= |attempts|
    ensures SameKeys(records, p.records)
    ensures UniqueFileIds(queue) ==> UniqueFileIds(p.queue)
    ensures listing.Abort? ==> p == PassResult(records, queue, true)
  {
    if listing.Abort? then PassResult(records, queue, true)
    else DrainFrom(PendingRecords(records), attempts, 0, records, queue)
  }

  /** The keys of the files from the `i`-th on that the drain selects (fewer than 3 attempts). */
  function SelectedFrom(files: seq<StoredFile>, i: nat): set<string>
    requires i <= |files|
    decreases |files| - i
  {
    if i == |files| then {}
    else (if files[i].uploadAttempts < MaxRetries then {files[i].id} else {}) + SelectedFrom(files, i + 1)
  }

  lemma {:induction false} SelectedFromMember(files: seq<StoredFile>, i: nat, id: string)
    requires i <= |files|
    ensures id in SelectedFrom(files, i) <==>
              exists j :: i <= j < |files| && files[j].id == id && files[j].uploadAttempts < MaxRetries
    decreases |files| - i
  {
    if i < |files| {
      SelectedFromMember(files, i + 1, id);
    }
  }

  /**
   * One attempted record's outcome: the write-back left it as it was only when
   * the pass was cut short; otherwise it was marked uploaded, with a `success`/100
   * entry, or had one more attempt counted, with an `error` entry.
   */
  ghost predicate Outcome(f: StoredFile, after: Option<StoredFile>, entry: Option<UploadProgress>, escaped: bool)
  {
    || (after == Some(f) && escaped)
    || (after == Some(f.(uploaded := true)) && entry.Some?
        && entry.value.status == Success && entry.value.progress == 100)
    || (after == Some(Bumped(f)) && entry.Some?
        && entry.value.status == Error && entry.value.progress == 0 && entry.value.error == Some(UploadFailedMessage))
  }

  lemma {:induction false} DrainAt(files: seq<StoredFile>, attempts: seq<Attempt>, i: nat,
                                   records: seq<StoredFile>, queue: seq<UploadProgress>, id: string)
    requires i <= |files| <= |attempts|
    requires forall a, b :: i <= a < b < |files| ==> files[a].id != files[b].id
    requires forall j :: i <= j < |files| ==> Lookup(records, files[j].id) == Some(files[j])
    ensures var p := DrainFrom(files, attempts, i, records, queue);
            id !in SelectedFrom(files, i) ==>
              Lookup(p.records, id) == Lookup(records, id) && ProgressOf(p.queue, id) == ProgressOf(queue, id)
    ensures var p := DrainFrom(files, attempts, i, records, queue);
            id in SelectedFrom(files, i) ==>
              Lookup(records, id).Some? && Outcome(Lookup(records, id).value, Lookup(p.records, id), ProgressOf(p.queue, id), p.escaped)
    decreases |files| - i
  {
    if i < |files| {
      var f := files[i];
      SelectedFromMember(files, i, id);
      SelectedFromMember(files, i + 1, id);
      if f.uploadAttempts >= MaxRetries {
        DrainAt(files, attempts, i + 1, records, queue, id);
      } else {
        var q1 := Upsert(queue, f.id);
        var u := UploadEffect(records, f.id, attempts[i]);
        if u.result.Ok? {
          var q2 := RecordResult(q1, f.id, u.result.value);
          DrainAt(files, attempts, i + 1, u.records, q2, id);
        }
      }
    }
  }

  /**
   * What a pass does to the record stored under `id`: a record the pass does
   * not select (already uploaded, or out of retries) and its progress entry are
   * left alone; a selected one receives exactly one outcome, unless the pass
   * was cut short; no record appears or disappears.
   */
  lemma PassOutcome(records: seq<StoredFile>, queue: seq<UploadProgress>, listing: Tx, attempts: seq<Attempt>, id: string)
    requires SortedById(records) && |records| <= |attempts|
    ensures var p := Pass(records, queue, listing, attempts);
            Lookup(records, id).None? ==> Lookup(p.records, id).None?
    ensures var p := Pass(records, queue, listing, attempts);
            Lookup(records, id).Some? && (Lookup(records, id).value.uploaded || Lookup(records, id).value.uploadAttempts >= MaxRetries) ==>
              Lookup(p.records, id) == Lookup(records, id) && ProgressOf(p.queue, id) == ProgressOf(queue, id)
    ensures var p := Pass(records, queue, listing, attempts);
            Lookup(records, id).Some? && !Lookup(records, id).value.uploaded && Lookup(records, id).value.uploadAttempts < MaxRetries ==>
              Outcome(Lookup(records, id).value, Lookup(p.records, id), ProgressOf(p.queue, id), p.escaped)
  {
    if listing.Commit? {
      var files := PendingRecords(records);
      PendingMembers(records);
      PendingSorted(records);
      SortedIsUnique(records);
      SortedIsUnique(files);
      forall j | 0 <= j < |files| ensures Lookup(records, files[j].id) == Some(files[j]) {
        LookupMember(records, files[j]);
      }
      DrainAt(files, attempts, 0, records, queue, id);
      SelectedFromMember(files, 0, id);
      if id in SelectedFrom(files, 0) {
        var j :| 0 <= j < |files| && files[j].id == id && files[j].uploadAttempts < MaxRetries;
        assert Lookup(records, id) == Some(files[j]);
      }
    }
  }

  /**
   * The drain is cut short exactly when some selected file's attempt is
   * rejected: the upload or the mark failed and so did the attempt count.
   */
  lemma {:induction false} DrainEscapes(files: seq<StoredFile>, attempts: seq<Attempt>, i: nat,
                                        records: seq<StoredFile>, queue: seq<UploadProgress>)
    requires i <= |files| <= |attempts|
    requires forall a, b :: i <= a < b < |files| ==> files[a].id != files[b].id
    requires forall j :: i <= j < |files| ==> Lookup(records, files[j].id) == Some(files[j])
    ensures DrainFrom(files, attempts, i, records, queue).escaped <==>
              exists j :: i <= j < |files| && files[j].uploadAttempts < MaxRetries && Rejects(attempts[j])
    decreases |files| - i
  {
    if i < |files| {
      var f := files[i];
      if f.uploadAttempts >= MaxRetries {
        DrainEscapes(files, attempts, i + 1, records, queue);
      } else if Rejects(attempts[i]) {
        assert Lookup(records, f.id) == Some(f);
      } else {
        assert Lookup(records, f.id) == Some(f);
        var u := UploadEffect(records, f.id, attempts[i]);
        assert u.result.Ok?;
        forall j | i + 1 <= j < |files| ensures Lookup(u.records, files[j].id) == Some(files[j]) {
          assert files[j].id != f.id;
        }
        var q2 := RecordResult(Upsert(queue, f.id), f.id, u.result.value);
        DrainEscapes(files, attempts, i + 1, u.records, q2);
      }
    }
  }

  /**
   * A pass is cut short exactly when the listing fails, or when the attempt
   * for some selected pending record is rejected. `PassAtPosition` says which
   * records were written before the cut.
   */
  lemma PassEscapes(records: seq<StoredFile>, queue: seq<UploadProgress>, listing: Tx, attempts: seq<Attempt>)
    requires SortedById(records) && |records| <= |attempts|
    ensures var files := PendingRecords(records);
            Pass(records, queue, listing, attempts).escaped <==>
              listing.Abort? || exists j :: 0 <= j < |files| && files[j].uploadAttempts < MaxRetries && Rejects(attempts[j])
  {
    if listing.Commit? {
      var files := PendingRecords(records);
      PendingMembers(records);
      PendingSorted(records);
      SortedIsUnique(records);
      SortedIsUnique(files);
      forall j | 0 <= j < |files| ensures Lookup(records, files[j].id) == Some(files[j]) {
        LookupMember(records, files[j]);
      }
      DrainEscapes(files, attempts, 0, records, queue);
    }
  }

  /** With a store that accepts every attempt count, a listed pass always runs to the end. */
  lemma PassNoEscape(records: seq<StoredFile>, queue: seq<UploadProgress>, attempts: seq<Attempt>)
    requires SortedById(records) && |records| <= |attempts|
    requires forall j :: 0 <= j < |attempts| ==> attempts[j].incrementTx.Commit?
    ensures !Pass(records, queue, Commit, attempts).escaped
  {
    PassEscapes(records, queue, Commit, attempts);
  }

  /** Some selected file from the `i`-th up to, not including, the `j`-th has its attempt rejected. */
  ghost predicate CutBefore(files: seq<StoredFile>, attempts: seq<Attempt>, i: nat, j: nat)
    requires j <= |files| <= |attempts|
  {
    exists k :: i <= k < j && files[k].uploadAttempts < MaxRetries && Rejects(attempts[k])
  }

  /** The first file of the drain, when selected and not rejected: it keeps its one outcome to the end of the drain. */
  lemma DrainKeepsFirst(files: seq<StoredFile>, attempts: seq<Attempt>, i: nat,
                        records: seq<StoredFile>, queue: seq<UploadProgress>)
    requires i < |files| <= |attempts|
    requires forall a, b :: i <= a < b < |files| ==> files[a].id != files[b].id
    requires forall k :: i <= k < |files| ==> Lookup(records, files[k].id) == Some(files[k])
    requires files[i].uploadAttempts < MaxRetries && !Rejects(attempts[i])
    ensures var p := DrainFrom(files, attempts, i, records, queue);
            Outcome(files[i], Lookup(p.records, files[i].id), ProgressOf(p.queue, files[i].id), false)
  {
    var f := files[i];
    assert Lookup(records, f.id) == Some(f);
    var u := UploadEffect(records, f.id, attempts[i]);
    forall k | i + 1 <= k < |files| ensures Lookup(u.records, files[k].id) == Some(files[k]) {
      assert files[k].id != f.id;
    }
    var q1 := Upsert(queue, f.id);
    var q2 := RecordResult(q1, f.id, u.result.value);
    SelectedFromMember(files, i + 1, f.id);
    DrainAt(files, attempts, i + 1, u.records, q2, f.id);
  }

  /**
   * The drain seen from the selected `j`-th file. When an earlier selected file
   * was rejected, the drain stopped there: the `j`-th is never tried and keeps
   * its record and its entry. Otherwise, when its own attempt is rejected, the
   * drain stops at it with its record unchanged and its entry left at
   * `uploading`/0. Otherwise it receives its one outcome, and nothing later in
   * the drain undoes that write.
   */
  lemma {:induction false} DrainAtPosition(files: seq<StoredFile>, attempts: seq<Attempt>, i: nat,
                                           records: seq<StoredFile>, queue: seq<UploadProgress>, j: nat)
    requires i <= |files| <= |attempts|
    requires forall a, b :: i <= a < b < |files| ==> files[a].id != files[b].id
    requires forall k :: i <= k < |files| ==> Lookup(records, files[k].id) == Some(files[k])
    requires i <= j < |files| && files[j].uploadAttempts < MaxRetries
    ensures var p := DrainFrom(files, attempts, i, records, queue);
            CutBefore(files, attempts, i, j) ==>
              p.escaped && Lookup(p.records, files[j].id) == Some(files[j])
              && ProgressOf(p.queue, files[j].id) == ProgressOf(queue, files[j].id)
    ensures var p := DrainFrom(files, attempts, i, records, queue);
            !CutBefore(files, attempts, i, j) && Rejects(attempts[j]) ==>
              p.escaped && Lookup(p.records, files[j].id) == Some(files[j])
              && ProgressOf(p.queue, files[j].id).Some?
              && ProgressOf(p.queue, files[j].id).value.status == Uploading
              && ProgressOf(p.queue, files[j].id).value.progress == 0
    ensures var p := DrainFrom(files, attempts, i, records, queue);
            !CutBefore(files, attempts, i, j) && !Rejects(attempts[j]) ==>
              Outcome(files[j], Lookup(p.records, files[j].id), ProgressOf(p.queue, files[j].id), false)
    decreases j - i
  {
    var f := files[i];
    var g := files[j];
    assert Lookup(records, f.id) == Some(f);
    var q1 := Upsert(queue, f.id);
    var u := UploadEffect(records, f.id, attempts[i]);
    if i == j {
      assert !CutBefore(files, attempts, i, j);
      if !Rejects(attempts[i]) {
        DrainKeepsFirst(files, attempts, i, records, queue);
      }
    } else if f.uploadAttempts >= MaxRetries {
      assert CutBefore(files, attempts, i, j) <==> CutBefore(files, attempts, i + 1, j);
      DrainAtPosition(files, attempts, i + 1, records, queue, j);
    } else if Rejects(attempts[i]) {
      assert CutBefore(files, attempts, i, j);
      assert g.id != f.id;
    } else {
      assert u.result.Ok?;
      assert CutBefore(files, attempts, i, j) <==> CutBefore(files, attempts, i + 1, j);
      forall k | i + 1 <= k < |files| ensures Lookup(u.records, files[k].id) == Some(files[k]) {
        assert files[k].id != f.id;
      }
      assert g.id != f.id;
      var q2 := RecordResult(q1, f.id, u.result.value);
      DrainAtPosition(files, attempts, i + 1, u.records, q2, j);
    }
  }

  /**
   * A listed pass seen from the `j`-th pending record, when it is selected:
   * left untried with its record and entry as they were when an earlier
   * selected record was rejected; unchanged with an `uploading`/0 entry, and
   * the pass cut short, when its own attempt is rejected; otherwise given its
   * one outcome, which the rest of the pass keeps.
   */
  lemma PassAtPosition(records: seq<StoredFile>, queue: seq<UploadProgress>, attempts: seq<Attempt>, j: nat)
    requires SortedById(records) && |records| <= |attempts|
    requires j < |PendingRecords(records)| && PendingRecords(records)[j].uploadAttempts < MaxRetries
    ensures var p := Pass(records, queue, Commit, attempts);
            var f := PendingRecords(records)[j];
            CutBefore(PendingRecords(records), attempts, 0, j) ==>
              p.escaped && Lookup(p.records, f.id) == Lookup(records, f.id) == Some(f)
              && ProgressOf(p.queue, f.id) == ProgressOf(queue, f.id)
    ensures var p := Pass(records, queue, Commit, attempts);
            var f := PendingRecords(records)[j];
            !CutBefore(PendingRecords(records), attempts, 0, j) && Rejects(attempts[j]) ==>
              p.escaped && Lookup(p.records, f.id) == Lookup(records, f.id) == Some(f)
              && ProgressOf(p.queue, f.id).Some?
              && ProgressOf(p.queue, f.id).value.status == Uploading
              && ProgressOf(p.queue, f.id).value.progress == 0
    ensures var p := Pass(records, queue, Commit, attempts);
            var f := PendingRecords(records)[j];
            !CutBefore(PendingRecords(records), attempts, 0, j) && !Rejects(attempts[j]) ==>
              Lookup(records, f.id) == Some(f) && Outcome(f, Lookup(p.records, f.id), ProgressOf(p.queue, f.id), false)
  {
    var files := PendingRecords(records);
    PendingMembers(records);
    PendingSorted(records);
    SortedIsUnique(records);
    SortedIsUnique(files);
    forall k | 0 <= k < |files| ensures Lookup(records, files[k].id) == Some(files[k]) {
      LookupMember(records, files[k]);
    }
    DrainAtPosition(files, attempts, 0, records, queue, j);
  }

  /** Through passes, no record's attempt count goes past the retry limit. */
  lemma PassKeepsRetryBound(records: seq<StoredFile>, queue: seq<UploadProgress>, listing: Tx, attempts: seq<Attempt>)
    requires SortedById(records) && |records| <= |attempts|
    requires forall x :: x in records ==> x.uploadAttempts <= MaxRetries
    ensures forall x :: x in Pass(records, queue, listing, attempts).records ==> x.uploadAttempts <= MaxRetries
  {
    var p := Pass(records, queue, listing, attempts);
    SortedIsUnique(records);
    assert SortedById(p.records);
    SortedIsUnique(p.records);
    forall x | x in p.records ensures x.uploadAttempts <= MaxRetries {
      var k :| 0 <= k < |p.records| && p.records[k] == x;
      PositionOfElement(p.records, k);
      PositionOfElement(records, k);
      PassOutcome(records, queue, listing, attempts, x.id);
    }
  }

  /* ---------------- Connectivity ---------------- */

  /** What the reachability probe saw: an ok response, a non-ok response, or a throw (including its 3 s timeout). */
  datatype Probe = OkResponse | NonOkResponse | Threw

  /** The new connectivity flag, and whether the change starts a drain pass. */
  datatype Transition = Transition(online: bool, drain: bool)

  /** `checkNetworkConnection`: only a change of state acts, so probes that agree with the flag do nothing. */
  function ProbeTransition(online: bool, probe: Probe): (t: Transition)
    ensures probe.OkResponse? && !online ==> t.online && t.drain
    ensures probe.Threw? && online ==> !t.online && !t.drain
    ensures !(probe.OkResponse? && !online) && !(probe.Threw? && online) ==> t.online == online && !t.drain
  {
    match probe
    case OkResponse => if !online then Transition(true, true) else Transition(online, false)
    case NonOkResponse => Transition(online, false)
    case Threw => if online then Transition(false, false) else Transition(online, false)
  }

  /** Repeating a probe result changes nothing: a drain starts on a transition, not on every probe. */
  lemma ProbeSettles(online: bool, probe: Probe)
    ensures var t := ProbeTransition(online, probe);
            ProbeTransition(t.online, probe) == Transition(t.online, false)
  {
  }

  /* ---------------- The orchestrator ---------------- */

  class Orchestrator {
    const store: ObjectStore
    var isOnline: bool
    var isUploading: bool
    var uploadQueue: seq<UploadProgress>
    var uploadCompleted: nat

    ghost predicate Valid()
      reads this, store
    {
      store.Valid() && UniqueFileIds(uploadQueue)
    }

    /** Nothing observable moved since the given state. */
    ghost predicate Idle(records0: seq<StoredFile>, queue0: seq<UploadProgress>, uploading0: bool, completed0: nat)
      reads this, store
    {
      store.records == records0 && uploadQueue == queue0 && isUploading == uploading0 && uploadCompleted == completed0
    }

    /** Exactly one pass ran from the given state and finished. */
    ghost predicate RanPass(records0: seq<StoredFile>, queue0: seq<UploadProgress>, completed0: nat, listing: Tx, attempts: seq<Attempt>)
      requires |records0| <= |attempts|
      reads this, store
    {
      var p := Pass(records0, queue0, listing, attempts);
      store.records == p.records && uploadQueue == p.queue && !isUploading && uploadCompleted == completed0 + 1
    }

    /** The composable's initial state; `online` is the platform's reported state. */
    constructor (store: ObjectStore, online: bool)
      requires store.Valid()
      ensures Valid() && this.store == store
      ensures isOnline == online && !isUploading && uploadQueue == [] && uploadCompleted == 0
    {
      this.store := store;
      isOnline := online;
      isUploading := false;
      uploadQueue := [];
      uploadCompleted := 0;
    }

    /** `uploadFile`. */
    method UploadFile(file: StoredFile, a: Attempt) returns (r: Result<bool, StoreError>)
      requires Valid()
      modifies store
      ensures Valid()
      ensures var u := UploadEffect(old(store.records), file.id, a); store.records == u.records && r == u.result
    {
      if a.response == Response2xx(true) {
        var marked := store.MarkAsUploaded(file.id, a.markTx);
        if marked.Ok? {
          return Ok(true);
        }
      }
      var bumped := store.IncrementUploadAttempts(file.id, a.incrementTx);
      if bumped.Err? {
        return Err(bumped.error);
      }
      r := Ok(false);
    }

    /** The progress update before an upload: append a fresh entry, or reset the existing one in place. */
    method MarkUploading(id: string)
      requires Valid()
      modifies this
      ensures Valid() && uploadQueue == Upsert(old(uploadQueue), id)
      ensures isOnline == old(isOnline) && isUploading == old(isUploading) && uploadCompleted == old(uploadCompleted)
    {
      var k := FindIndex(uploadQueue, id);
      if k == -1 {
        uploadQueue := uploadQueue + [UploadProgress(id, 0, Uploading, None)];
      } else {
        uploadQueue := uploadQueue[k := uploadQueue[k].(status := Uploading, progress := 0)];
      }
    }

    /** The progress update after an upload, in place on the file's entry if it has one. */
    method ShowResult(id: string, success: bool)
      requires Valid()
      modifies this
      ensures Valid() && uploadQueue == RecordResult(old(uploadQueue), id, success)
      ensures isOnline == old(isOnline) && isUploading == old(isUploading) && uploadCompleted == old(uploadCompleted)
    {
      var k := FindIndex(uploadQueue, id);
      if k != -1 {
        if success {
          uploadQueue := uploadQueue[k := uploadQueue[k].(status := Success, progress := 100)];
        } else {
          uploadQueue := uploadQueue[k := uploadQueue[k].(status := Error, error := Some(UploadFailedMessage))];
        }
      }
    }

    /**
     * `processUploadQueue`: offline or already uploading, nothing happens;
     * otherwise exactly one pass runs and the `finally` block always clears
     * the flag and counts the pass.
     */
    method ProcessUploadQueue(listing: Tx, attempts: seq<Attempt>)
      requires Valid() && |store.records| <= |attempts|
      modifies this, store
      ensures Valid() && isOnline == old(isOnline)
      ensures old(!isOnline || isUploading) ==>
                Idle(old(store.records), old(uploadQueue), old(isUploading), old(uploadCompleted))
      ensures old(isOnline && !isUploading) ==>
                RanPass(old(store.records), old(uploadQueue), old(uploadCompleted), listing, attempts)
    {
      if !isOnline || isUploading {
        return;
      }
      isUploading := true;
      ghost var records0, queue0 := store.records, uploadQueue;
      var pending := store.GetPendingFiles(listing);
      if pending.Ok? {
        var files := pending.value;
        if |files| != 0 {
          var i := 0;
          while i < |files|
            invariant 0 <= i <= |files|
            invariant Valid() && isOnline == old(isOnline) && isUploading && uploadCompleted == old(uploadCompleted)
            invariant DrainFrom(files, attempts, i, store.records, uploadQueue) == DrainFrom(files, attempts, 0, records0, queue0)
          {
            var file := files[i];
            if file.uploadAttempts >= MaxRetries {
              i := i + 1;
              continue;
            }
            MarkUploading(file.id);
            var success := UploadFile(file, attempts[i]);
            if success.Err? {
              // the rejection escapes to the pass-level catch
              break;
            }
            ShowResult(file.id, success.value);
            i := i + 1;
          }
        }
      }
      isUploading := false;
      uploadCompleted := uploadCompleted + 1;
    }

    /** The `online` handler: set the flag and start a pass. */
    method HandleOnline(listing: Tx, attempts: seq<Attempt>)
      requires Valid() && |store.records| <= |attempts|
      modifies this, store
      ensures Valid() && isOnline
      ensures old(isUploading) ==> Idle(old(store.records), old(uploadQueue), old(isUploading), old(uploadCompleted))
      ensures !old(isUploading) ==> RanPass(old(store.records), old(uploadQueue), old(uploadCompleted), listing, attempts)
    {
      isOnline := true;
      ProcessUploadQueue(listing, attempts);
    }

    /** The `offline` handler: clear the flag only. */
    method HandleOffline()
      requires Valid()
      modifies this
      ensures Valid() && !isOnline
      ensures isUploading == old(isUploading) && uploadQueue == old(uploadQueue) && uploadCompleted == old(uploadCompleted)
    {
      isOnline := false;
    }

    /** `checkNetworkConnection`: one probe and the transition it causes. */
    method CheckNetworkConnection(probe: Probe, listing: Tx, attempts: seq<Attempt>)
      requires Valid() && |store.records| <= |attempts|
      modifies this, store
      ensures Valid()
      ensures isOnline == ProbeTransition(old(isOnline), probe).online
      ensures ProbeTransition(old(isOnline), probe).drain && !old(isUploading) ==>
                RanPass(old(store.records), old(uploadQueue), old(uploadCompleted), listing, attempts)
      ensures !(ProbeTransition(old(isOnline), probe).drain && !old(isUploading)) ==>
                Idle(old(store.records), old(uploadQueue), old(isUploading), old(uploadCompleted))
    {
      match probe
      case OkResponse =>
        if !isOnline {
          HandleOnline(listing, attempts);
        }
      case NonOkResponse =>
      case Threw =>
        if isOnline {
          HandleOffline();
        }
    }

    /** `triggerUpload`: refused with a notice while offline, otherwise a pass attempt. */
    method TriggerUpload(listing: Tx, attempts: seq<Attempt>) returns (alerted: bool)
      requires Valid() && |store.records| <= |attempts|
      modifies this, store
      ensures Valid() && isOnline == old(isOnline)
      ensures alerted <==> !old(isOnline)
      ensures alerted || old(isUploading) ==>
                Idle(old(store.records), old(uploadQueue), old(isUploading), old(uploadCompleted))
      ensures !alerted && !old(isUploading) ==>
                RanPass(old(store.records), old(uploadQueue), old(uploadCompleted), listing, attempts)
    {
      if !isOnline {
        return true;
      }
      ProcessUploadQueue(listing, attempts);
      alerted := false;
    }

    /** `getUploadProgress`: the entry for `id`, if the list has one. */
    function GetUploadProgress(id: string): (r: Option<UploadProgress>)
      reads this
      ensures r.Some? ==> r.value in uploadQueue && r.value.fileId == id
      ensures r.None? ==> forall e :: e in uploadQueue ==> e.fileId != id
    {
      ProgressOf(uploadQueue, id)
    }

    /** `clearUploadQueue`: empties the progress list and touches nothing else. */
    method ClearUploadQueue()
      requires Valid()
      modifies this
      ensures Valid() && uploadQueue == [] && GetUploadStats().total == 0
      ensures isOnline == old(isOnline) && isUploading == old(isUploading) && uploadCompleted == old(uploadCompleted)
    {
      uploadQueue := [];
    }

    /** `getUploadStats`: the four status counts add up to the total. */
    function GetUploadStats(): (r: UploadStats)
      reads this
      ensures r.total == |uploadQueue|
      ensures r.success == Count(uploadQueue, Success) && r.error == Count(uploadQueue, Error)
      ensures r.pending == Count(uploadQueue, Pending) && r.uploading == Count(uploadQueue, Uploading)
      ensures r.success + r.error + r.pending + r.uploading == r.total
    {
      StatusesPartition(uploadQueue);
      UploadStats(|uploadQueue|, Count(uploadQueue, Success), Count(uploadQueue, Error),
                  Count(uploadQueue, Pending), Count(uploadQueue, Uploading))
    }
  }
}

=== FILE: uuid.dfy ===
/**
 * The record store's id generator. When the host offers `crypto.randomUUID`
 * its answer is used as is; otherwise each `x` and `y` of a version-4 template
 * is replaced, left to right, by one random hexadecimal digit. The random draws
 * are an input here: one nibble (0..15) per placeholder.
 */
module Uuid {
  import opened Common

  const Template: string := "xxxxxxxx-xxxx-4xxx-yxxx-xxxxxxxxxxxx"
  const HexDigits: string := "0123456789abcdef"

  /** `Math.random() * 16 | 0`: a whole number from 0 to 15. */
  type Nibble = n: int | 0 <= n < 16

  /** `v.toString(16)` for a single nibble. */
  function HexDigit(v: Nibble): (d: char)
    ensures d in HexDigits
  {
    HexDigits[v]
  }

  /** Different nibbles print as different digits. */
  lemma HexDigitInjective(a: Nibble, b: Nibble)
    ensures HexDigit(a) == HexDigit(b) ==> a == b
  {
  }

  /** The replacement callback: an `x` takes the draw, a `y` takes `r & 0x3 | 0x8`. */
  function Replacement(c: char, r: Nibble): (d: char)
    requires c == 'x' || c == 'y'
    ensures c == 'x' ==> d in HexDigits
    ensures c == 'y' ==> d in "89ab"
  {
    var v := if c == 'x' then r else (((r as bv8) & 0x3) | 0x8) as int;
    HexDigit(v)
  }

  /** The number of placeholders (`x` or `y`) in a template. */
  function Placeholders(t: string): nat
  {
    if t == [] then 0
    else (if t[0] == 'x' || t[0] == 'y' then 1 else 0) + Placeholders(t[1..])
  }

  /** `template.replace(/[xy]/g, callback)`, consuming one draw per placeholder. */
  function Fill(t: string, draws: seq<Nibble>): (u: string)
    requires |draws| == Placeholders(t)
    ensures |u| == |t|
  {
    if t == [] then []
    else if t[0] == 'x' || t[0] == 'y' then [Replacement(t[0], draws[0])] + Fill(t[1..], draws[1..])
    else [t[0]] + Fill(t[1..], draws)
  }

  /** What one output character may be, given the template character it came from. */
  predicate Shaped(c: char, d: char)
  {
    if c == 'x' then d in HexDigits
    else if c == 'y' then d in "89ab"
    else d == c
  }

  lemma {:induction false} FillShape(t: string, draws: seq<Nibble>)
    requires |draws| == Placeholders(t)
    ensures |Fill(t, draws)| == |t|
    ensures forall i :: 0 <= i < |t| ==> Shaped(t[i], Fill(t, draws)[i])
  {
    if t != [] {
      var rest := if t[0] == 'x' || t[0] == 'y' then draws[1..] else draws;
      FillShape(t[1..], rest);
      var u := Fill(t, draws);
      assert u == [u[0]] + Fill(t[1..], rest);
      forall i | 0 <= i < |t| ensures Shaped(t[i], u[i]) {
        if i > 0 {
          assert t[i] == t[1..][i - 1];
        }
      }
    }
  }

  /**
   * The version-4 layout: 36 characters, dashes at 8, 13, 18 and 23, the
   * version digit 4 at 14, a variant digit 8..b at 19, and a hexadecimal digit
   * wherever the template has an `x`.
   */
  predicate IsVersion4Layout(u: string)
  {
    && |u| == 36
    && u[8] == '-' && u[13] == '-' && u[18] == '-' && u[23] == '-'
    && u[14] == '4'
    && u[19] in "89ab"
    && forall i :: 0 <= i < 36 && Template[i] == 'x' ==> u[i] in HexDigits
  }

  lemma {:induction false} PlaceholdersAppend(a: string, b: string)
    ensures Placeholders(a + b) == Placeholders(a) + Placeholders(b)
  {
    if a == [] {
      assert a + b == b;
    } else {
      assert (a + b)[0] == a[0];
      assert (a + b)[1..] == a[1..] + b;
      PlaceholdersAppend(a[1..], b);
    }
  }

  /** The template, cut into runs of placeholders and the literals between them. */
  lemma TemplatePieces()
    ensures Template == "xxxxxxxx" + "-" + "xxxx" + "-4" + "xxx" + "-y" + "xxx" + "-" + "xxxxxxxxxxxx"
  {
  }

  lemma {:induction false} PlaceholdersAllX(t: string)
    requires forall i :: 0 <= i < |t| ==> t[i] == 'x'
    ensures Placeholders(t) == |t|
  {
    if t != [] {
      PlaceholdersAllX(t[1..]);
    }
  }

  /** The literal pieces between the runs: `-`, `-4` and `-y` hold 0, 0 and 1 placeholders. */
  lemma LiteralPieces()
    ensures Placeholders("-") == 0 && Placeholders("-4") == 0 && Placeholders("-y") == 1
  {
    assert "-"[1..] == [] && "-4"[1..] == "4" && "4"[1..] == [] && "-y"[1..] == "y" && "y"[1..] == [];
  }

  /** The template has 31 placeholders: its `4` is literal, so 31 draws are made. */
  lemma TemplatePlaceholders()
    ensures Placeholders(Template) == 31
  {
    var x8, x4, x3, x12 := "xxxxxxxx", "xxxx", "xxx", "xxxxxxxxxxxx";
    PlaceholdersAllX(x8);
    PlaceholdersAllX(x4);
    PlaceholdersAllX(x3);
    PlaceholdersAllX(x12);
    LiteralPieces();
    TemplatePieces();
    var a1 := x8 + "-";
    PlaceholdersAppend(x8, "-");
    var a2 := a1 + x4;
    PlaceholdersAppend(a1, x4);
    var a3 := a2 + "-4";
    PlaceholdersAppend(a2, "-4");
    var a4 := a3 + x3;
    PlaceholdersAppend(a3, x3);
    var a5 := a4 + "-y";
    PlaceholdersAppend(a4, "-y");
    var a6 := a5 + x3;
    PlaceholdersAppend(a5, x3);
    var a7 := a6 + "-";
    PlaceholdersAppend(a6, "-");
    PlaceholdersAppend(a7, x12);
  }

  lemma TemplateLandmarks()
    ensures |Template| == 36
    ensures Template[8] == '-' && Template[13] == '-' && Template[18] == '-' && Template[23] == '-'
    ensures Template[14] == '4' && Template[19] == 'y'
  {
  }

  /** Any string shaped character by character after the template has the version-4 layout. */
  lemma ShapedIsVersion4(u: string)
    requires |u| == |Template|
    requires forall i :: 0 <= i < |Template| ==> Shaped(Template[i], u[i])
    ensures IsVersion4Layout(u)
  {
    TemplateLandmarks();
    assert Shaped(Template[8], u[8]) && Shaped(Template[13], u[13]);
    assert Shaped(Template[18], u[18]) && Shaped(Template[23], u[23]);
    assert Shaped(Template[14], u[14]) && Shaped(Template[19], u[19]);
  }

  /** The fallback generator: 31 draws fill the template. */
  function FallbackUuid(draws: seq<Nibble>): (u: string)
    requires |draws| == 31
    ensures IsVersion4Layout(u)
  {
    TemplatePlaceholders();
    FillShape(Template, draws);
    ShapedIsVersion4(Fill(Template, draws));
    Fill(Template, draws)
  }

  /** `generateUUID`: the host's `crypto.randomUUID()` when present, else the fallback. */
  function GenerateUuid(randomUuid: Option<string>, draws: seq<Nibble>): (u: string)
    requires |draws| == 31
    ensures randomUuid.Some? ==> u == randomUuid.value
    ensures randomUuid.None? ==> IsVersion4Layout(u)
  {
    match randomUuid
    case Some(id) => id
    case None => FallbackUuid(draws)
  }
}
